=== FILE: README.md ===
# HPP lattice gas with energetic particles: a Dafny model

`hpc.py` simulates a lattice gas of the HPP kind on a `map_size` x `map_size`
torus. Each cell has four directional slots, N, E, S and W. Each slot is
empty or holds one particle, and a particle carries an energy and a species
(good or bad).

A tick runs in two passes:

- `Board.next_iteration` visits every cell in row-major order. For each cell:
  1. It runs `Cell.decrease_energy`, which clears exhausted particles and
     takes one unit of energy from the others.
  2. `Board.calculate_cell` scatters a head-on pair onto the perpendicular
     axis, after `Board.collide_particles` has shared `ENERGY_GAIN` between
     the two particles.
  3. It writes every particle into the same-named slot of its neighbour's
     `next_state` buffer.
- `Board.update_board` then commits every buffer as the new state and
  empties the buffers.

The model follows that structure, one module per concern:

| module | file | what it holds |
|---|---|---|
| `Particles` | `particles.dfy` | particles, species, the split modes, the configuration record (`Default` has the module constants `map_size = 32`, `DENSITY = 0.2`, `ENERGY_INIT = 20`, `ENERGY_GAIN = 10`, `good_or_bad`, `GOOD_TO_BAD_RATIO = 0.8`), particle creation and `decrease_energy` |
| `Cells` | `cells.dfy` | the four-slot cell state, `is_empty`, `is_collision`, the cell's `decrease_energy`, `generate_state` |
| `Collision` | `collision.dfy` | `good_collision`, `bad_collision`, `collide_particles` and the scattering half of `calculate_cell` |
| `Torus` | `torus.dfy` | the neighbour indices of the propagation half of `calculate_cell`, including Python's reading of index -1 |
| `Board` | `board.dfy` | the grid, `fill`, `next_iteration` (a method that writes in the source's visiting order), `update_board`, and the tick |
| `Sums`, `Conservation` | `sums.dfy`, `conservation.dfy` | sums over the grid, and what a tick does to the particle count and the total energy |
| `Scenarios` | `scenarios.dfy` | worked single-cell examples that pin down the rule choices |

Values replace objects:

- A `Particle` is a value. A slot is `Empty` or `Occupied(p)`, which makes
  the source's `0` sentinel explicit.
- Energies are exact reals.
- Every random draw is an argument:
  - the energy and species draws of a new particle;
  - the direction drawn by `generate_state`;
  - the density draw of `fill`;
  - the 50% axis swap of each cell, a function `swap` from a cell's
    location to a boolean.

`next_iteration` is modelled twice:

- `NextIteration` is a loop that writes in the source's visiting order.
- `Pulled` describes the same grid cell by cell.

The method's contract proves that the row-major visit of hpc.py:168-169
yields the cell-by-cell grid `Pulled`. Every later property is stated on
`Tick`, which is `Pulled` followed by `UpdateBoard`.

## Model

| member | source | states |
|---|---|---|
| `Particles.NewParticle` | hpc.py:32-38 | A new particle's energy lies in [0.9 ENERGY_INIT, 1.1 ENERGY_INIT] for any draw in [0, 1]. A given species is kept. A random species is good exactly when the draw is below GOOD_TO_BAD_RATIO. |
| `Particles.UniformBounds` | hpc.py:33-34 | `random.uniform(lo, hi)` stays within [lo, hi] for any draw in [0, 1]. |
| `Particles.DecreaseEnergy` | hpc.py:40-41 | Decrementing keeps the species and lowers the energy by exactly 1. |
| `Cells.IsEmpty` | hpc.py:56-57 | A cell equals the all-empty dictionary exactly when it holds no particle, that is, when every slot is empty. |
| `Cells.IsCollision` | hpc.py:59-67 | A cell is a collision exactly when it holds the N and S pair alone or the E and W pair alone. A perpendicular pair, or 0, 1, 3 or 4 particles, is not a collision. |
| `Cells.DecaySlot` | hpc.py:72-76 | A slot stays occupied exactly when it held a particle of positive energy. The particle keeps its species and loses exactly 1, even when that makes its energy non-positive. |
| `Cells.Decay` | hpc.py:69-76 | Each slot decays independently, and the cell never gains a particle. |
| `Cells.DecayLifetime` | hpc.py:69-76 | After k >= 1 undisturbed decays a particle is present exactly when its energy exceeded k - 1, and it has lost exactly k. |
| `Cells.GenerateState` | hpc.py:79-86 | An alive cell holds exactly one particle, the new one, in the drawn direction. Any other cell is empty. |
| `Collision.GoodCollision` | hpc.py:110-113 | Species are kept, both particles gain the same amount, and the pair gains ENERGY_GAIN. |
| `Collision.BadCollision` | hpc.py:115-120 | Species are kept and exactly one particle gains ENERGY_GAIN. With a non-zero gain, the first particle gains exactly when it is strictly more energetic, so ties go to the second. |
| `Collision.CollideParticles` | hpc.py:122-136 | Species are kept. `equal`, or a good/good pair under `good_or_bad`, splits the gain in halves. `winner_takes_it_all`, or any other pair under `good_or_bad`, gives all of it to the strictly more energetic first particle, else to the second. An unrecognised mode changes nothing. The pair's energy rises by exactly the gain of the mode. |
| `Collision.RulesPartition` | hpc.py:124-134 | Under a recognised mode exactly one of the equal rule and the winner rule applies. |
| `Collision.CollideSymmetric` | hpc.py:115-136 | Exchanging the two particles exchanges the results, except for a tie under the winner rule. |
| `Collision.Scatter` | hpc.py:144-156 | A non-collision cell passes unchanged. An E-W pair leaves on N/S, and an N-S pair leaves on E/W, with the original axis emptied. The outgoing pair is the result of `collide_particles`. For an E-W pair: (N, S) = collide(W, E), or collide(E, W) after the swap. For an N-S pair: (W, E) = collide(N, S), or collide(S, N) after the swap. |
| `Collision.ScatterConserves` | hpc.py:144-156 | Scattering keeps the number of particles and the multiset of species. A collision adds exactly its gain to the cell's energy, and any other cell's energy is unchanged. |
| `Collision.ScatterEastWest` | hpc.py:145-150 | An E-W pair lands as two particles with the same species, and their energy rises by the gain. |
| `Collision.ScatterNorthSouth` | hpc.py:151-156 | An N-S pair lands as two particles with the same species, and their energy rises by the gain. |
| `Collision.ScatterSwapOnlyMirrors` | hpc.py:146-156 | Outside a tie under the winner rule, the swap draw only mirrors the outgoing pair: swapped equals unswapped turned half a revolution. |
| `Collision.ScatterTieFollowsSwap` | hpc.py:115-120 | On a tie under the winner rule, the swap draw decides which original particle gains ENERGY_GAIN: E or S without the swap, W or N with it. |
| `Torus.PyIndex` | hpc.py:161-165 | Python's reading of an index in [-n, n) always lands inside the list. |
| `Torus.PyIndexIsModulo` | hpc.py:161-165 | Reading index y - 1 or x - 1 the way Python does is the residue modulo map_size. |
| `Torus.NextIsModulo` | hpc.py:159-163 | `(i + 1) % map_size` wraps only at the last index. |
| `Torus.Dest` | hpc.py:158-165 | Each direction's destination stays on the board. |
| `Torus.DestIsUnitStep` | hpc.py:158-165 | N moves to (x, y+1), S to (x, y-1), E to (x+1, y) and W to (x-1, y), all modulo map_size. |
| `Torus.DestIsSourceIndex` | hpc.py:158-165 | The destinations are the source's index expressions: `(y + 1) % map_size`, `y - 1`, `(x + 1) % map_size` and `x - 1`. |
| `Torus.Src` | hpc.py:158-165 | Every slot has an upstream cell whose particle in that direction lands in it. |
| `Torus.SrcOfDest` | hpc.py:158-165 | The upstream cell of a destination is the cell that sent there. |
| `Torus.DestInjective` | hpc.py:158-165 | Two different cells never write the same slot of the same neighbour, so no particle is overwritten. |
| `Board.NewCell` | hpc.py:50-54 | A new cell has its location and an empty buffer. It holds one particle, the drawn one in the drawn direction, exactly when alive. |
| `Board.Fill` | hpc.py:93-102 | The grid is map_size x map_size, each cell knows its location, and every buffer is empty. A cell holds its drawn particle exactly when `ran` is set and its density draw is below DENSITY; otherwise it is empty. |
| `Board.Process` | hpc.py:171-172 | The local step of a cell is `decrease_energy` followed by the scattering of `calculate_cell`. A cell that is no collision after decay leaves decayed. One that is leaves as a collision on the other axis. |
| `Board.ProcessConserves` | hpc.py:144-156 | Over a cell's local step, the particle count and species are those left by decay, and the energy is decay's plus the gain when the decayed cell collides. |
| `Board.ProcessedAt` | hpc.py:169-172 | The state each cell carries into propagation is its own state decayed, then scattered with its own swap draw. |
| `Board.ProcessedStages` | hpc.py:167-172 | Processing the grid is decaying every cell, then scattering every cell. |
| `Board.Gather` | hpc.py:158-165 | Slot d of what a cell receives is slot d of its upstream cell in direction d. |
| `Board.Overlay` | hpc.py:158-165 | A written slot replaces the buffer's content, and an unwritten one keeps it. |
| `Board.EmitSlot` | hpc.py:158-165 | One write touches only slot d of the destination, and only when the sending slot is occupied. |
| `Board.Emit` | hpc.py:158-165 | Propagating from a cell writes each occupied slot into its destination and changes no state and no other slot. |
| `Board.Pulled` | hpc.py:167-172 | The grid `next_iteration` produces: each cell holds its own processed state, and its buffer holds what arrived from upstream over what it held. |
| `Board.Settle` | hpc.py:138-165 | `calculate_cell` on one cell sets that cell's state to its processed state. It writes each occupied slot into the same slot of its destination and changes nothing else. |
| `Board.PulledFrom` | hpc.py:167-172 | For a given layer of states p, cell (x, y) holds p[x][y], and its buffer holds `Gather` of p over what it held. `Pulled` instantiates p with the processed states. |
| `Board.NextIteration` | hpc.py:167-172 | Visiting the cells in row-major order, each decaying, scattering and pushing, yields exactly the cell-by-cell grid `Pulled`. |
| `Board.VisitRow` | hpc.py:168-172 | Visiting one row extends the invariant: the cells visited so far hold their processed states and have pushed them downstream. |
| `Board.UpdateBoard` | hpc.py:174-181 | Every cell's state becomes its buffer, its location is kept, and every buffer is emptied. |
| `Board.Tick` | hpc.py:167-181 | A tick keeps the grid well formed and leaves every buffer empty. |
| `Board.TickArrivals` | hpc.py:158-181 | After a tick, each cell's state is exactly what arrived from upstream. |
| `Board.TickMovesEachSlot` | hpc.py:158-181 | Every processed slot, occupied or not, becomes the same slot of its downstream neighbour after the tick. |
| `Board.EmptyStaysEmpty` | hpc.py:167-181 | A board with no particle still has none after a tick. |
| `Conservation.ArrivalsKeepTotal` | hpc.py:158-165 | Propagation keeps three totals of the grid: the particle count, the energy, and the energy of exhausted particles. |
| `Conservation.DecayedPopulation` | hpc.py:69-76 | Decay never raises the particle count of the grid. |
| `Conservation.DecayedEnergy` | hpc.py:69-76 | Decay lowers the grid's energy by one per survivor, plus the energy of the exhausted particles it clears. |
| `Conservation.ScatteredPopulation` | hpc.py:144-156 | Scattering keeps the particle count of the grid. |
| `Conservation.ScatteredEnergy` | hpc.py:144-156 | Scattering adds the mode's gain once per colliding cell to the grid's energy. |
| `Conservation.CollisionEnergyPerCollision` | hpc.py:122-136 | The energy the collisions add is the gain times the number of colliding cells. |
| `Conservation.TickKeepsScatteredTotal` | hpc.py:158-181 | Propagation and commit keep three totals of the scattered grid: the particle count, the energy, and the energy of exhausted particles. |
| `Conservation.TickPopulation` | hpc.py:167-181 | After a tick the particle count equals the count after decay, so it never rises. |
| `Conservation.TickEnergy` | hpc.py:167-181 | After a tick the energy is the old energy, minus 1 per surviving particle, minus the energy of the cleared ones, plus the gain per collision among the decayed cells. |
| `Scenarios.DecayBeforeCollision` | hpc.py:169-172 | Decay comes before the collision. N=20 and S=30 good particles, under `equal` with gain 40 and no swap, leave as W=39 and E=49. |
| `Scenarios.GoodOutweighsBad` | hpc.py:130-134 | Under `good_or_bad` the more energetic particle of a good/bad pair takes the whole gain, even when it is the good one. |
| `Scenarios.TieGoesToSecond` | hpc.py:116-120 | On a tie the gain goes to the second argument, which the swap draw selects. |
| `Scenarios.PerpendicularPairPasses` | hpc.py:59-67 | An N and E pair is not a collision and only decays. |
| `Scenarios.ExhaustedParticleLingers` | hpc.py:72-76 | A particle of energy 0.5 survives one decay at -0.5 and is cleared by the next. |

## Behaviour worth noting

`hpc.py` has these features, which the model keeps:

- **No energy cap.** Energies are only raised by collisions and lowered by
  decay, with no bound in either direction.
- **Test before decrement.** Decay tests `energy <= 0` before it
  decrements (hpc.py:73-76). A particle whose energy drops to zero or
  below survives one more tick and is cleared by the next decay
  (`Cells.DecayLifetime`, `Scenarios.ExhaustedParticleLingers`).
- **No reproduction or metrics.** Particles are created by `fill` and by
  the event loop's mouse editing (hpc.py:259-260), which is left out.
  No totals are accumulated during a tick.
- **Good/bad pairs go to the stronger particle.** Under `good_or_bad`, a
  pair that is not good/good goes through `bad_collision` (hpc.py:130-134),
  which rewards the strictly more energetic particle whatever its species
  (`Scenarios.GoodOutweighsBad`).
- **Ties go to the second argument.** `bad_collision` gives the gain to
  `p2` on a tie (hpc.py:117-120). Which particle is `p2` depends on the
  cell's swap draw (`Collision.ScatterTieFollowsSwap`).
- **Unknown modes do nothing.** With an `ENERGY_SPLIT` outside the three
  known strings, `collide_particles` changes nothing (hpc.py:124-136). The
  model represents this as `Split.Unrecognized`, with gain 0.

## Left out

- Rendering is not modelled: pygame, `Board.draw`, `Board.refresh_cell`,
  the `Tile` class and the colour constants (hpc.py:19-28, 104-108,
  184-200), together with `speed`, `squares` and `margin`.
- The event loop is not modelled: key handling, frame timing, mouse
  editing and `Cell.pressed_count`. This is user interface and I/O. Mouse
  editing is the only caller of `generate_state` with a fixed behaviour
  (hpc.py:259-260). The model keeps that path in
  `Cells.GenerateState`'s `kind` parameter and `Particles.Kind.Fixed`.
- Random draws are inputs, not a generator. The energy bound of
  `NewParticle` holds for draws in [0, 1], the range of `random.random`.
  Nothing is said about distributions.
- Floating-point rounding is not modelled, because energies are exact
  reals.
- Object identity of particles is not modelled, because particles are
  values. During `next_iteration` a pushed particle is referenced both
  from the sender's `state` and from the receiver's `next_state`
  (hpc.py:158-165). Value semantics still match the source for three
  reasons. Each particle sits in one current-state slot. The reference
  pushed into a buffer is not mutated again during the pass, because the
  sender has already been visited. `update_board` drops the sender's
  reference (hpc.py:179).
- `Board.Fill` builds a fresh grid. `fill` assumes an empty `Board.map`,
  which hpc.py always provides (hpc.py:91, 229). On a non-empty map it
  would insert the new cells at the front of the existing rows and append
  rows that stay empty; that case is not modelled.
- The tick lemmas (`Board.TickArrivals`, `Board.TickMovesEachSlot`,
  `Board.EmptyStaysEmpty` and the `Conservation` totals) assume every
  `next_state` buffer is empty at the start of the tick. `Fill` and `Tick`
  both establish this.
- `calculate_cell` reads `cell.location`; the model uses the cell's grid
  indices. `WellFormed` states that the two agree, and `Fill` establishes
  it.
- Collision.ScatterSwapOnlyMirrors: the property is stated only outside a
  tie under the winner rule. On a tie the swap also decides which particle
  gains, which `Collision.ScatterTieFollowsSwap` states instead.

=== FILE: board.dfy ===
/** The grid of `Board`: map_size x map_size cells, each with its current
    state, the `next_state` buffer neighbours write into, and its location.
    A tick is `next_iteration` (decay, scatter, propagate into the
    neighbours' buffers) followed by `update_board` (commit). */
module Board {
  import opened Particles
  import opened Cells
  import opened Collision
  import opened Torus

  datatype Cell = Cell(state: State, next: State, loc: (int, int))

  type Grid = seq<seq<Cell>>

  /** The 50% axis-swap draw of `calculate_cell`, for the cell at (x, y). */
  type Coin = (int, int) -> bool

  /** What `Cell(location, alive)` draws at random for one cell. */
  datatype Draw = Draw(uAlive: real, dir: Dir, uEnergy: real, uSpecies: real)

  /** A grid of layers of cell states, indexed [x][y] like `Board.map`. */
  type Layer = seq<seq<State>>

  predicate IsSquare(n: nat, l: Layer)
  {
    |l| == n && forall x :: 0 <= x < n ==> |l[x]| == n
  }

  /** An n x n grid whose cell at [x][y] knows its location is (x, y). */
  predicate WellFormed(n: nat, g: Grid)
  {
    && |g| == n
    && (forall x :: 0 <= x < n ==> |g[x]| == n)
    && (forall x, y :: 0 <= x < n && 0 <= y < n ==> g[x][y].loc == (x, y))
  }

  /** Between ticks every `next_state` buffer is all-empty. */
  predicate Settled(g: Grid)
  {
    forall x, y :: 0 <= x < |g| && 0 <= y < |g[x]| ==> g[x][y].next == Vacant
  }

  /** `Cell(location, alive)`: a fresh cell with an empty buffer. */
  function NewCell(cfg: Config, loc: (int, int), alive: bool, d: Draw): (c: Cell)
    ensures c.loc == loc && c.next == Vacant
    ensures Count(c.state) == if alive then 1 else 0
    ensures alive ==> c.state.Get(d.dir) == Occupied(NewParticle(cfg, Random, d.uEnergy, d.uSpecies))
  {
    Cell(GenerateState(cfg, alive, Random, d.dir, d.uEnergy, d.uSpecies), Vacant, loc)
  }

  /** `Board.fill(ran)`: with `ran` each cell is alive when its draw falls
      below DENSITY, otherwise every cell starts empty. */
  function Fill(cfg: Config, ran: bool, draws: (int, int) -> Draw): (g: Grid)
    ensures WellFormed(cfg.mapSize, g) && Settled(g)
    ensures forall x, y :: 0 <= x < cfg.mapSize && 0 <= y < cfg.mapSize ==>
              Count(g[x][y].state) == if ran && draws(x, y).uAlive < cfg.density then 1 else 0
    ensures forall x, y :: 0 <= x < cfg.mapSize && 0 <= y < cfg.mapSize && Count(g[x][y].state) == 1 ==>
              g[x][y].state.Get(draws(x, y).dir) == Occupied(NewParticle(cfg, Random, draws(x, y).uEnergy, draws(x, y).uSpecies))
  {
    var n := cfg.mapSize;
    var g := seq(n, x requires 0 <= x < n =>
      seq(n, y requires 0 <= y < n =>
        NewCell(cfg, (x, y), ran && draws(x, y).uAlive < cfg.density, draws(x, y))));
    assert forall x, y :: 0 <= x < n && 0 <= y < n ==>
      g[x][y] == NewCell(cfg, (x, y), ran && draws(x, y).uAlive < cfg.density, draws(x, y));
    g
  }

  /** What `next_iteration` does to one cell's own state before
      propagation: `decrease_energy`, then the scattering of
      `calculate_cell`. */
  function Process(cfg: Config, c: State, swap: bool): (r: State)
    ensures !IsCollision(Decay(c)) ==> r == Decay(c)
    ensures IsCollision(Decay(c)) ==> IsCollision(r) && r.n.Occupied? == Decay(c).e.Occupied?
  {
    Scatter(cfg, Decay(c), swap)
  }

  /** Over the local step of a cell, particles are kept apart from decay's
      losses, and a collision among the survivors adds its gain. */
  lemma ProcessConserves(cfg: Config, c: State, swap: bool)
    ensures Count(Process(cfg, c, swap)) == Count(Decay(c)) <= Count(c)
    ensures SpeciesOf(Process(cfg, c, swap)) == SpeciesOf(Decay(c))
    ensures Energy(Process(cfg, c, swap))
            == Energy(Decay(c)) + (if IsCollision(Decay(c)) then CollisionGain(cfg) else 0.0)
  {
    ScatterConserves(cfg, Decay(c), swap);
  }

  function States(g: Grid): (l: Layer)
    ensures |l| == |g| && forall x :: 0 <= x < |g| ==> |l[x]| == |g[x]|
  {
    seq(|g|, x requires 0 <= x < |g| =>
      seq(|g[x]|, y requires 0 <= y < |g[x]| => g[x][y].state))
  }

  lemma StatesAt(g: Grid, x: int, y: int)
    requires 0 <= x < |g| && 0 <= y < |g[x]|
    ensures States(g)[x][y] == g[x][y].state
  {
  }

  function Decayed(l: Layer): (r: Layer)
    ensures |r| == |l| && forall x :: 0 <= x < |l| ==> |r[x]| == |l[x]|
  {
    seq(|l|, x requires 0 <= x < |l| =>
      seq(|l[x]|, y requires 0 <= y < |l[x]| => Decay(l[x][y])))
  }

  function Scattered(cfg: Config, l: Layer, swap: Coin): (r: Layer)
    ensures |r| == |l| && forall x :: 0 <= x < |l| ==> |r[x]| == |l[x]|
  {
    seq(|l|, x requires 0 <= x < |l| =>
      seq(|l[x]|, y requires 0 <= y < |l[x]| => Scatter(cfg, l[x][y], swap(x, y))))
  }

  /** Every cell's own state at the end of `next_iteration`. */
  function Processed(cfg: Config, g: Grid, swap: Coin): (p: Layer)
    requires WellFormed(cfg.mapSize, g)
    ensures IsSquare(cfg.mapSize, p)
  {
    seq(|g|, x requires 0 <= x < |g| => ProcessRow(cfg, g[x], x, 0, swap))
  }

  /** Row x of `Processed`, from column y0 on. */
  function ProcessRow(cfg: Config, row: seq<Cell>, x: int, y0: int, swap: Coin): (r: seq<State>)
    ensures |r| == |row|
    decreases |row|
  {
    if |row| == 0 then []
    else [Process(cfg, row[0].state, swap(x, y0))] + ProcessRow(cfg, row[1..], x, y0 + 1, swap)
  }

  lemma {:induction false} ProcessRowAt(cfg: Config, row: seq<Cell>, x: int, y0: int, swap: Coin, k: int)
    requires 0 <= k < |row|
    ensures ProcessRow(cfg, row, x, y0, swap)[k] == Process(cfg, row[k].state, swap(x, y0 + k))
    decreases |row|
  {
    if k > 0 {
      ProcessRowAt(cfg, row[1..], x, y0 + 1, swap, k - 1);
    }
  }

  /** Processing is decay followed by scattering, layer by layer. */
  lemma ProcessedStages(cfg: Config, g: Grid, swap: Coin)
    requires WellFormed(cfg.mapSize, g)
    ensures Processed(cfg, g, swap) == Scattered(cfg, Decayed(States(g)), swap)
  {
    var a := Processed(cfg, g, swap);
    var b := Scattered(cfg, Decayed(States(g)), swap);
    forall x | 0 <= x < |g|
      ensures a[x] == b[x]
    {
      forall y | 0 <= y < |g[x]|
        ensures a[x][y] == b[x][y]
      {
        assert States(g)[x][y] == g[x][y].state;
        assert Decayed(States(g))[x][y] == Decay(g[x][y].state);
        ProcessedAt(cfg, g, swap, x, y);
      }
    }
  }

  lemma ProcessedAt(cfg: Config, g: Grid, swap: Coin, x: int, y: int)
    requires WellFormed(cfg.mapSize, g) && 0 <= x < cfg.mapSize && 0 <= y < cfg.mapSize
    ensures Processed(cfg, g, swap)[x][y] == Process(cfg, g[x][y].state, swap(x, y))
  {
    ProcessRowAt(cfg, g[x], x, 0, swap, y);
  }

  /** The state that cell (x, y) receives: slot d holds whatever slot d of
      its d-neighbour upstream held. */
  function Gather(n: nat, p: Layer, x: int, y: int): (r: State)
    requires IsSquare(n, p) && 0 <= x < n && 0 <= y < n
    ensures forall d :: r.Get(d) == p[Src(n, x, y, d).0][Src(n, x, y, d).1].Get(d)
  {
    var (nx, ny) := Src(n, x, y, N);
    var (ex, ey) := Src(n, x, y, E);
    var (sx, sy) := Src(n, x, y, S);
    var (wx, wy) := Src(n, x, y, W);
    State(p[nx][ny].n, p[ex][ey].e, p[sx][sy].s, p[wx][wy].w)
  }

  function Arrivals(n: nat, p: Layer): (r: Layer)
    requires IsSquare(n, p)
    ensures IsSquare(n, r)
  {
    seq(n, x requires 0 <= x < n => seq(n, y requires 0 <= y < n => Gather(n, p, x, y)))
  }

  /** A slot written during propagation replaces the buffer's content;
      the others keep it. */
  function Overlay(held: State, incoming: State): (r: State)
    ensures forall d :: r.Get(d) == if incoming.Get(d).Occupied? then incoming.Get(d) else held.Get(d)
  {
    State(
      if incoming.n.Occupied? then incoming.n else held.n,
      if incoming.e.Occupied? then incoming.e else held.e,
      if incoming.s.Occupied? then incoming.s else held.s,
      if incoming.w.Occupied? then incoming.w else held.w)
  }

  /** The grid after `next_iteration`, described cell by cell: each cell
      holds its processed state, and its buffer holds what arrived from
      upstream on top of what it held before. */
  function Pulled(cfg: Config, g: Grid, swap: Coin): (r: Grid)
    requires WellFormed(cfg.mapSize, g)
    ensures WellFormed(cfg.mapSize, r)
    ensures forall x, y {:trigger r[x][y]} :: 0 <= x < cfg.mapSize && 0 <= y < cfg.mapSize ==>
              && r[x][y].state == Process(cfg, g[x][y].state, swap(x, y))
              && r[x][y].next == Overlay(g[x][y].next, Gather(cfg.mapSize, Processed(cfg, g, swap), x, y))
  {
    ProcessedAll(cfg, g, swap);
    PulledFrom(cfg.mapSize, g, Processed(cfg, g, swap))
  }

  lemma ProcessedAll(cfg: Config, g: Grid, swap: Coin)
    requires WellFormed(cfg.mapSize, g)
    ensures forall x, y :: 0 <= x < cfg.mapSize && 0 <= y < cfg.mapSize ==>
              Processed(cfg, g, swap)[x][y] == Process(cfg, g[x][y].state, swap(x, y))
  {
    forall x, y | 0 <= x < cfg.mapSize && 0 <= y < cfg.mapSize
      ensures Processed(cfg, g, swap)[x][y] == Process(cfg, g[x][y].state, swap(x, y))
    {
      ProcessedAt(cfg, g, swap, x, y);
    }
  }

  /** `Pulled` for given processed states `p`. */
  function PulledFrom(n: nat, g: Grid, p: Layer): (r: Grid)
    requires WellFormed(n, g) && IsSquare(n, p)
    ensures WellFormed(n, r)
    ensures forall x, y {:trigger r[x][y]} :: 0 <= x < n && 0 <= y < n ==>
              r[x][y] == Cell(p[x][y], Overlay(g[x][y].next, Gather(n, p, x, y)), g[x][y].loc)
  {
    seq(n, x requires 0 <= x < n =>
      seq(n, y requires 0 <= y < n =>
        Cell(p[x][y], Overlay(g[x][y].next, Gather(n, p, x, y)), g[x][y].loc)))
  }

  /** (x, y) comes before (i, j) in the row-major visiting order. */
  predicate Before(x: int, y: int, i: int, j: int)
  {
    x < i || (x == i && y < j)
  }

  /** Slot d of the buffer of (x, y) once the cells before (i, j) have
      pushed their processed states `p`. */
  function ArrivedSlot(n: nat, g0: Grid, p: Layer, i: int, j: int, x: int, y: int, d: Dir): Slot
    requires WellFormed(n, g0) && IsSquare(n, p) && 0 <= x < n && 0 <= y < n
  {
    var (sx, sy) := Src(n, x, y, d);
    var moved := p[sx][sy].Get(d);
    if Before(sx, sy, i, j) && moved.Occupied? then moved else g0[x][y].next.Get(d)
  }

  /** The loop invariant of `NextIteration`: the cells before (i, j) hold
      their processed states `p` and have pushed them downstream. */
  predicate Progress(n: nat, g0: Grid, p: Layer, g: Grid, i: int, j: int)
    requires WellFormed(n, g0) && IsSquare(n, p)
  {
    && WellFormed(n, g)
    && (forall x, y :: 0 <= x < n && 0 <= y < n ==>
          g[x][y].state == if Before(x, y, i, j) then p[x][y] else g0[x][y].state)
    && (forall x, y, d :: 0 <= x < n && 0 <= y < n ==>
          g[x][y].next.Get(d) == ArrivedSlot(n, g0, p, i, j, x, y, d))
  }

  function SetState(g: Grid, x: int, y: int, c: State): (r: Grid)
    requires 0 <= x < |g| && 0 <= y < |g[x]|
    ensures |r| == |g| && forall a :: 0 <= a < |g| ==> |r[a]| == |g[a]|
    ensures forall a, b :: 0 <= a < |g| && 0 <= b < |g[a]| ==>
              r[a][b] == if (a, b) == (x, y) then g[a][b].(state := c) else g[a][b]
  {
    g[x := g[x][y := g[x][y].(state := c)]]
  }

  /** One assignment `m[x][y].next_state[d] = v`. */
  function PutNext(g: Grid, x: int, y: int, d: Dir, v: Slot): (r: Grid)
    requires 0 <= x < |g| && 0 <= y < |g[x]|
    ensures |r| == |g| && forall a :: 0 <= a < |g| ==> |r[a]| == |g[a]|
    ensures forall a, b :: 0 <= a < |g| && 0 <= b < |g[a]| ==>
              r[a][b].state == g[a][b].state && r[a][b].loc == g[a][b].loc
    ensures forall a, b, d' :: 0 <= a < |g| && 0 <= b < |g[a]| ==>
              r[a][b].next.Get(d') == if (a, b, d') == (x, y, d) then v else g[a][b].next.Get(d')
  {
    g[x := g[x][y := g[x][y].(next := g[x][y].next.Set(d, v))]]
  }

  /** One `if st[d] != 0: m[..][..].next_state[d] = st[d]` of
      `calculate_cell`: slot d of (x, y) is written into slot d of its
      downstream neighbour. */
  function EmitSlot(n: nat, g: Grid, x: int, y: int, d: Dir, v: Slot): (r: Grid)
    requires WellFormed(n, g) && 0 <= x < n && 0 <= y < n
    ensures WellFormed(n, r)
    ensures forall a, b :: 0 <= a < n && 0 <= b < n ==> r[a][b].state == g[a][b].state
    ensures forall a, b, d' :: 0 <= a < n && 0 <= b < n ==>
              r[a][b].next.Get(d') ==
                if d' == d && (a, b) == Dest(n, x, y, d) && v.Occupied? then v else g[a][b].next.Get(d')
  {
    if v.Occupied? then
      var (tx, ty) := Dest(n, x, y, d);
      PutNext(g, tx, ty, d, v)
    else g
  }

  /** Propagation from (x, y), the second half of `calculate_cell`: each
      occupied slot is written into the same slot of its neighbour, in
      the source's order N, S, E, W. */
  function Emit(n: nat, g: Grid, x: int, y: int, c: State): (r: Grid)
    requires WellFormed(n, g) && 0 <= x < n && 0 <= y < n
    ensures WellFormed(n, r)
    ensures forall a, b :: 0 <= a < n && 0 <= b < n ==> r[a][b].state == g[a][b].state
    ensures forall a, b, d :: 0 <= a < n && 0 <= b < n ==>
              r[a][b].next.Get(d) ==
                if (a, b) == Dest(n, x, y, d) && c.Get(d).Occupied? then c.Get(d) else g[a][b].next.Get(d)
  {
    var g1 := EmitSlot(n, g, x, y, N, c.n);
    var g2 := EmitSlot(n, g1, x, y, S, c.s);
    var g3 := EmitSlot(n, g2, x, y, E, c.e);
    EmitSlot(n, g3, x, y, W, c.w)
  }

  /** `calculate_cell` for the cell at (x, y) once its own state has
      become `c`: the cell keeps `c` and pushes its particles downstream. */
  function Settle(n: nat, g: Grid, x: int, y: int, c: State): (r: Grid)
    requires WellFormed(n, g) && 0 <= x < n && 0 <= y < n
    ensures WellFormed(n, r)
    ensures forall a, b :: 0 <= a < n && 0 <= b < n ==>
              r[a][b].state == if (a, b) == (x, y) then c else g[a][b].state
    ensures forall a, b, d :: 0 <= a < n && 0 <= b < n ==>
              r[a][b].next.Get(d) ==
                if (a, b) == Dest(n, x, y, d) && c.Get(d).Occupied? then c.Get(d) else g[a][b].next.Get(d)
  {
    Emit(n, SetState(g, x, y, c), x, y, c)
  }

  /** `Board.next_iteration`: visit the cells in row-major order; each one
      decays, scatters and pushes its particles into the neighbours'
      buffers. The row-major visit yields the cell-by-cell description
      `Pulled`. */
  method NextIteration(cfg: Config, g0: Grid, swap: Coin) returns (g: Grid)
    requires WellFormed(cfg.mapSize, g0)
    ensures g == Pulled(cfg, g0, swap)
  {
    var n := cfg.mapSize;
    ghost var p := Processed(cfg, g0, swap);
    g := g0;
    ProgressStart(n, g0, p);
    var i := 0;
    while i < n
      invariant 0 <= i <= n
      invariant Progress(n, g0, p, g, i, 0)
    {
      g := VisitRow(cfg, g0, swap, p, g, i);
      i := i + 1;
    }
    PulledFromProgress(n, g0, p, g, i);
  }

  /** The inner loop of `next_iteration`: `calculate_cell` on row i. */
  method VisitRow(cfg: Config, g0: Grid, swap: Coin, ghost p: Layer, g: Grid, i: int) returns (r: Grid)
    requires WellFormed(cfg.mapSize, g0) && p == Processed(cfg, g0, swap) && 0 <= i < cfg.mapSize
    requires Progress(cfg.mapSize, g0, p, g, i, 0)
    ensures Progress(cfg.mapSize, g0, p, r, i + 1, 0)
  {
    var n := cfg.mapSize;
    r := g;
    var j := 0;
    while j < n
      invariant 0 <= j <= n
      invariant Progress(n, g0, p, r, i, j)
    {
      // The cell's `location` is (i, j) in a well-formed grid.
      var c := Process(cfg, r[i][j].state, swap(i, j));
      VisitStep(cfg, g0, swap, p, r, i, j, c);
      r := Settle(n, r, i, j, c);
      j := j + 1;
    }
    ProgressNextRow(n, g0, p, r, i);
  }

  /** The state `calculate_cell` computes at (i, j) is the processed one. */
  lemma VisitStep(cfg: Config, g0: Grid, swap: Coin, p: Layer, g: Grid, i: int, j: int, c: State)
    requires WellFormed(cfg.mapSize, g0) && p == Processed(cfg, g0, swap)
    requires 0 <= i < cfg.mapSize && 0 <= j < cfg.mapSize
    requires Progress(cfg.mapSize, g0, p, g, i, j)
    requires c == Process(cfg, g[i][j].state, swap(i, j))
    ensures Progress(cfg.mapSize, g0, p, Settle(cfg.mapSize, g, i, j, c), i, j + 1)
  {
    ProcessedAt(cfg, g0, swap, i, j);
    ProgressStep(cfg.mapSize, g0, p, g, i, j, c);
  }

  /** Visiting (i, j) extends the invariant to the next position. */
  lemma ProgressStep(n: nat, g0: Grid, p: Layer, g: Grid, i: int, j: int, c: State)
    requires WellFormed(n, g0) && IsSquare(n, p) && 0 <= i < n && 0 <= j < n
    requires Progress(n, g0, p, g, i, j)
    requires c == p[i][j]
    ensures Progress(n, g0, p, Settle(n, g, i, j, c), i, j + 1)
  {
    var g1: Grid := SetState(g, i, j, c);
    var r: Grid := Settle(n, g, i, j, c);
    assert r == Emit(n, g1, i, j, c);
    PushStates(n, g0, p, g, r, i, j);
    PushBuffers(n, g0, p, g, g1, r, i, j);
  }

  /** Before the first visit nothing has moved. */
  lemma ProgressStart(n: nat, g0: Grid, p: Layer)
    requires WellFormed(n, g0) && IsSquare(n, p)
    ensures Progress(n, g0, p, g0, 0, 0)
  {
  }

  /** Finishing row i is starting row i + 1. */
  lemma ProgressNextRow(n: nat, g0: Grid, p: Layer, g: Grid, i: int)
    requires WellFormed(n, g0) && IsSquare(n, p)
    requires Progress(n, g0, p, g, i, n)
    ensures Progress(n, g0, p, g, i + 1, 0)
  {
    forall x: int, y: int, d: Dir | 0 <= x < n && 0 <= y < n
      ensures ArrivedSlot(n, g0, p, i, n, x, y, d) == ArrivedSlot(n, g0, p, i + 1, 0, x, y, d)
    {
    }
  }

  lemma PushStates(n: nat, g0: Grid, p: Layer, g: Grid, r: Grid, i: int, j: int)
    requires WellFormed(n, g0) && IsSquare(n, p) && 0 <= i < n && 0 <= j < n
    requires Progress(n, g0, p, g, i, j)
    requires WellFormed(n, r)
    requires forall a, b :: 0 <= a < n && 0 <= b < n ==>
               r[a][b].state == if (a, b) == (i, j) then p[i][j] else g[a][b].state
    ensures forall a, b :: 0 <= a < n && 0 <= b < n ==>
              r[a][b].state == if Before(a, b, i, j + 1) then p[a][b] else g0[a][b].state
  {
  }

  lemma PushBuffers(n: nat, g0: Grid, p: Layer, g: Grid, g1: Grid, r: Grid, i: int, j: int)
    requires WellFormed(n, g0) && IsSquare(n, p) && 0 <= i < n && 0 <= j < n
    requires Progress(n, g0, p, g, i, j)
    requires WellFormed(n, g1) && WellFormed(n, r)
    requires forall a, b :: 0 <= a < n && 0 <= b < n ==> g1[a][b].next == g[a][b].next
    requires forall a, b, d :: 0 <= a < n && 0 <= b < n ==>
               r[a][b].next.Get(d) ==
                 if (a, b) == Dest(n, i, j, d) && p[i][j].Get(d).Occupied? then p[i][j].Get(d) else g1[a][b].next.Get(d)
    ensures forall a, b, d :: 0 <= a < n && 0 <= b < n ==>
              r[a][b].next.Get(d) == ArrivedSlot(n, g0, p, i, j + 1, a, b, d)
  {
    forall a: int, b: int, d: Dir | 0 <= a < n && 0 <= b < n
      ensures r[a][b].next.Get(d) == ArrivedSlot(n, g0, p, i, j + 1, a, b, d)
    {
      ArrivedStep(n, g0, p, i, j, a, b, d, g[a][b].next.Get(d), r[a][b].next.Get(d));
    }
  }

  /** One slot of `PushBuffers`: visiting (i, j) writes the slot exactly
      when (i, j) is its upstream cell and sends something. */
  lemma ArrivedStep(n: nat, g0: Grid, p: Layer, i: int, j: int, a: int, b: int, d: Dir, before: Slot, after: Slot)
    requires WellFormed(n, g0) && IsSquare(n, p) && 0 <= i < n && 0 <= j < n && 0 <= a < n && 0 <= b < n
    requires before == ArrivedSlot(n, g0, p, i, j, a, b, d)
    requires after == if (a, b) == Dest(n, i, j, d) && p[i][j].Get(d).Occupied? then p[i][j].Get(d) else before
    ensures after == ArrivedSlot(n, g0, p, i, j + 1, a, b, d)
  {
    var s := Src(n, a, b, d);
    if (a, b) == Dest(n, i, j, d) {
      SrcOfDest(n, i, j, d);
      assert s == (i, j);
    } else {
      assert s != (i, j);
    }
  }

  /** Once every cell has been visited the grid is `Pulled`. */
  lemma PulledFromProgress(n: nat, g0: Grid, p: Layer, g: Grid, i: int)
    requires WellFormed(n, g0) && IsSquare(n, p)
    requires i == n && Progress(n, g0, p, g, i, 0)
    ensures g == PulledFrom(n, g0, p)
  {
    var r: Grid := PulledFrom(n, g0, p);
    forall x: int | 0 <= x < n
      ensures g[x] == r[x]
    {
      forall y: int | 0 <= y < n
        ensures g[x][y] == r[x][y]
      {
        CellFromProgress(n, g0, p, g, x, y);
      }
    }
  }

  lemma CellFromProgress(n: nat, g0: Grid, p: Layer, g: Grid, x: int, y: int)
    requires WellFormed(n, g0) && IsSquare(n, p) && 0 <= x < n && 0 <= y < n
    requires Progress(n, g0, p, g, n, 0)
    ensures g[x][y] == PulledFrom(n, g0, p)[x][y]
  {
    var want := Overlay(g0[x][y].next, Gather(n, p, x, y));
    forall d
      ensures g[x][y].next.Get(d) == want.Get(d)
    {
      ArrivedAll(n, g0, p, x, y, d);
    }
    StateExt(g[x][y].next, want);
  }

  /** When every cell has been visited, a buffer slot holds what arrived
      from upstream on top of what it held before. */
  lemma ArrivedAll(n: nat, g0: Grid, p: Layer, x: int, y: int, d: Dir)
    requires WellFormed(n, g0) && IsSquare(n, p) && 0 <= x < n && 0 <= y < n
    ensures ArrivedSlot(n, g0, p, n, 0, x, y, d) == Overlay(g0[x][y].next, Gather(n, p, x, y)).Get(d)
  {
    var s := Src(n, x, y, d);
    assert Before(s.0, s.1, n, 0);
  }

  /** `Board.update_board`: every cell takes its buffer as its state and
      gets a fresh, empty buffer. */
  function UpdateBoard(g: Grid): (r: Grid)
    ensures |r| == |g| && forall x :: 0 <= x < |g| ==> |r[x]| == |g[x]|
    ensures Settled(r)
    ensures forall x, y :: 0 <= x < |g| && 0 <= y < |g[x]| ==>
              r[x][y].state == g[x][y].next && r[x][y].loc == g[x][y].loc
  {
    seq(|g|, x requires 0 <= x < |g| =>
      seq(|g[x]|, y requires 0 <= y < |g[x]| => Cell(g[x][y].next, Vacant, g[x][y].loc)))
  }

  /** One step of the simulation: `next_iteration` then `update_board`. */
  function Tick(cfg: Config, g: Grid, swap: Coin): (r: Grid)
    requires WellFormed(cfg.mapSize, g)
    ensures WellFormed(cfg.mapSize, r) && Settled(r)
  {
    UpdateBoard(Pulled(cfg, g, swap))
  }

  /** After a tick from a settled grid, each cell's state is exactly what
      arrived from upstream. */
  lemma TickArrivals(cfg: Config, g: Grid, swap: Coin)
    requires WellFormed(cfg.mapSize, g) && Settled(g)
    ensures States(Tick(cfg, g, swap)) == Arrivals(cfg.mapSize, Processed(cfg, g, swap))
  {
    var n := cfg.mapSize;
    var st := States(Tick(cfg, g, swap));
    var a := Arrivals(n, Processed(cfg, g, swap));
    forall x | 0 <= x < n
      ensures st[x] == a[x]
    {
      TickArrivalRow(cfg, g, swap, x);
    }
  }

  lemma TickArrivalRow(cfg: Config, g: Grid, swap: Coin, x: int)
    requires WellFormed(cfg.mapSize, g) && Settled(g)
    requires 0 <= x < cfg.mapSize
    ensures States(Tick(cfg, g, swap))[x] == Arrivals(cfg.mapSize, Processed(cfg, g, swap))[x]
  {
    var st := States(Tick(cfg, g, swap))[x];
    var a := Arrivals(cfg.mapSize, Processed(cfg, g, swap))[x];
    forall y | 0 <= y < cfg.mapSize
      ensures st[y] == a[y]
    {
      TickArrivalAt(cfg, g, swap, x, y);
    }
  }

  lemma TickArrivalAt(cfg: Config, g: Grid, swap: Coin, x: int, y: int)
    requires WellFormed(cfg.mapSize, g) && Settled(g)
    requires 0 <= x < cfg.mapSize && 0 <= y < cfg.mapSize
    ensures States(Tick(cfg, g, swap))[x][y] == Arrivals(cfg.mapSize, Processed(cfg, g, swap))[x][y]
  {
    var t := Tick(cfg, g, swap);
    TickAt(cfg, g, swap, x, y);
    StatesAt(t, x, y);
    assert Arrivals(cfg.mapSize, Processed(cfg, g, swap))[x][y] == Gather(cfg.mapSize, Processed(cfg, g, swap), x, y);
  }

  /** Every particle moves exactly one step: slot d of cell (x, y) after
      processing, occupied or not, is slot d of its downstream neighbour
      after the tick. */
  lemma TickMovesEachSlot(cfg: Config, g: Grid, swap: Coin, x: int, y: int, d: Dir)
    requires WellFormed(cfg.mapSize, g) && Settled(g)
    requires 0 <= x < cfg.mapSize && 0 <= y < cfg.mapSize
    ensures Tick(cfg, g, swap)[Dest(cfg.mapSize, x, y, d).0][Dest(cfg.mapSize, x, y, d).1].state.Get(d)
            == Process(cfg, g[x][y].state, swap(x, y)).Get(d)
  {
    var n := cfg.mapSize;
    var p := Processed(cfg, g, swap);
    var t := Dest(n, x, y, d);
    TickAt(cfg, g, swap, t.0, t.1);
    SrcOfDest(n, x, y, d);
    ProcessedAt(cfg, g, swap, x, y);
  }

  /** The state of one cell after a tick from a settled grid. */
  lemma TickAt(cfg: Config, g: Grid, swap: Coin, x: int, y: int)
    requires WellFormed(cfg.mapSize, g) && Settled(g)
    requires 0 <= x < cfg.mapSize && 0 <= y < cfg.mapSize
    ensures Tick(cfg, g, swap)[x][y].state == Gather(cfg.mapSize, Processed(cfg, g, swap), x, y)
  {
    var n := cfg.mapSize;
    var p := Processed(cfg, g, swap);
    var pulled: Grid := PulledFrom(n, g, p);
    assert Pulled(cfg, g, swap) == pulled;
    assert Tick(cfg, g, swap) == UpdateBoard(pulled);
    assert UpdateBoard(pulled)[x][y].state == pulled[x][y].next;
    var q := pulled[x][y].next;
    var a := Gather(n, p, x, y);
    assert q == Overlay(g[x][y].next, a);
    assert g[x][y].next == Vacant;
    forall d
      ensures q.Get(d) == a.Get(d)
    {
    }
    StateExt(q, a);
  }

  /** An empty board stays empty: nothing is created during a tick. */
  lemma EmptyStaysEmpty(cfg: Config, g: Grid, swap: Coin)
    requires WellFormed(cfg.mapSize, g) && Settled(g)
    requires forall x, y :: 0 <= x < cfg.mapSize && 0 <= y < cfg.mapSize ==> IsEmpty(g[x][y].state)
    ensures forall x, y :: 0 <= x < cfg.mapSize && 0 <= y < cfg.mapSize ==> IsEmpty(Tick(cfg, g, swap)[x][y].state)
  {
    forall x, y | 0 <= x < cfg.mapSize && 0 <= y < cfg.mapSize
      ensures IsEmpty(Tick(cfg, g, swap)[x][y].state)
    {
      EmptyCellAfterTick(cfg, g, swap, x, y);
    }
  }

  lemma EmptyCellAfterTick(cfg: Config, g: Grid, swap: Coin, x: int, y: int)
    requires WellFormed(cfg.mapSize, g) && Settled(g)
    requires forall x, y :: 0 <= x < cfg.mapSize && 0 <= y < cfg.mapSize ==> IsEmpty(g[x][y].state)
    requires 0 <= x < cfg.mapSize && 0 <= y < cfg.mapSize
    ensures IsEmpty(Tick(cfg, g, swap)[x][y].state)
  {
    var n := cfg.mapSize;
    var p: Layer := Processed(cfg, g, swap);
    TickAt(cfg, g, swap, x, y);
    forall d
      ensures p[Src(n, x, y, d).0][Src(n, x, y, d).1].Get(d).Empty?
    {
      var s := Src(n, x, y, d);
      ProcessedAt(cfg, g, swap, s.0, s.1);
      assert IsEmpty(g[s.0][s.1].state);
      assert !IsCollision(Decay(g[s.0][s.1].state));
    }
  }
}

=== FILE: cells.dfy ===
/** One lattice site: four directional slots, each empty or holding one
    particle (the source's `{'N': 0, 'E': 0, 'S': 0, 'W': 0}` dictionary,
    with the `0` sentinel made an explicit `Empty`). */
module Cells {
  import opened Particles

  datatype Dir = N | E | S | W

  datatype Slot = Empty | Occupied(p: Particle)

  datatype State = State(n: Slot, e: Slot, s: Slot, w: Slot)
  {
    function Get(d: Dir): Slot
    {
      match d
      case N => n
      case E => e
      case S => s
      case W => w
    }

    function Set(d: Dir, v: Slot): (r: State)
      ensures r.Get(d) == v
      ensures forall d' :: d' != d ==> r.Get(d') == Get(d')
    {
      match d
      case N => this.(n := v)
      case E => this.(e := v)
      case S => this.(s := v)
      case W => this.(w := v)
    }
  }

  const Vacant := State(Empty, Empty, Empty, Empty)

  /** Two states that agree on every direction are equal. */
  lemma StateExt(a: State, b: State)
    requires forall d :: a.Get(d) == b.Get(d)
    ensures a == b
  {
    assert a.Get(N) == b.Get(N) && a.Get(E) == b.Get(E);
    assert a.Get(S) == b.Get(S) && a.Get(W) == b.Get(W);
  }

  function SlotCount(s: Slot): nat
  {
    if s.Occupied? then 1 else 0
  }

  /** Number of particles in the cell. */
  function Count(c: State): nat
  {
    SlotCount(c.n) + SlotCount(c.e) + SlotCount(c.s) + SlotCount(c.w)
  }

  function SlotEnergy(s: Slot): real
  {
    if s.Occupied? then s.p.energy else 0.0
  }

  /** Total energy of the particles in the cell. */
  function Energy(c: State): real
  {
    SlotEnergy(c.n) + SlotEnergy(c.e) + SlotEnergy(c.s) + SlotEnergy(c.w)
  }

  function SlotSpecies(s: Slot): multiset<Species>
  {
    if s.Occupied? then multiset{s.p.species} else multiset{}
  }

  /** The species present in the cell, with multiplicity. */
  function SpeciesOf(c: State): multiset<Species>
  {
    SlotSpecies(c.n) + SlotSpecies(c.e) + SlotSpecies(c.s) + SlotSpecies(c.w)
  }

  /** `Cell.is_empty`: the state equals the all-zero dictionary. */
  function IsEmpty(c: State): (r: bool)
    ensures r <==> Count(c) == 0
    ensures r <==> forall d :: c.Get(d).Empty?
  {
    assert (forall d :: c.Get(d).Empty?) ==>
             c.Get(N).Empty? && c.Get(E).Empty? && c.Get(S).Empty? && c.Get(W).Empty?;
    c == Vacant
  }

  /** `Cell.is_collision`: exactly two occupied slots, and the N/S pair or
      the E/W pair is the empty one. */
  function IsCollision(c: State): (r: bool)
    ensures r <==> ((c.n.Occupied? && c.s.Occupied? && c.e.Empty? && c.w.Empty?)
                 || (c.e.Occupied? && c.w.Occupied? && c.n.Empty? && c.s.Empty?))
  {
    Count(c) == 2 && ((c.n.Empty? && c.s.Empty?) || (c.e.Empty? && c.w.Empty?))
  }

  /** One slot of `Cell.decrease_energy`: the emptiness test comes before
      the decrement, so a particle can leave with a non-positive energy
      and is only cleared on the next call. */
  function DecaySlot(s: Slot): (r: Slot)
    ensures r.Occupied? <==> s.Occupied? && s.p.energy > 0.0
    ensures r.Occupied? ==> r.p.species == s.p.species && r.p.energy == s.p.energy - 1.0
  {
    match s
    case Empty => Empty
    case Occupied(p) => if p.energy <= 0.0 then Empty else Occupied(DecreaseEnergy(p))
  }

  /** `Cell.decrease_energy`. */
  function Decay(c: State): (r: State)
    ensures forall d :: r.Get(d) == DecaySlot(c.Get(d))
    ensures Count(r) <= Count(c)
  {
    State(DecaySlot(c.n), DecaySlot(c.e), DecaySlot(c.s), DecaySlot(c.w))
  }

  /** `k` consecutive applications of one slot's decay. */
  function DecaySlotTimes(s: Slot, k: nat): Slot
  {
    if k == 0 then s else DecaySlot(DecaySlotTimes(s, k - 1))
  }

  /** Lifetime of an undisturbed particle: after `k` >= 1 decays it is
      still there exactly when its energy exceeded k - 1, and it has lost
      k. So a particle of energy in (0, 1] survives one decay with a
      non-positive energy and is cleared by the second. */
  lemma {:induction false} DecayLifetime(s: Slot, k: nat)
    requires s.Occupied? && k >= 1
    ensures DecaySlotTimes(s, k).Occupied? <==> s.p.energy > (k as real) - 1.0
    ensures DecaySlotTimes(s, k).Occupied? ==>
              DecaySlotTimes(s, k).p == Particle(s.p.energy - k as real, s.p.species)
  {
    if k > 1 {
      var before := DecaySlotTimes(s, k - 1);
      DecayLifetime(s, k - 1);
      assert DecaySlotTimes(s, k) == DecaySlot(before);
      assert ((k - 1) as real) == (k as real) - 1.0;
      if before.Occupied? {
        assert before.p.energy == s.p.energy - (k as real) + 1.0;
      }
    }
  }

  /** `Cell.generate_state(alive, behaviour)`: `dir` is the draw of
      `random.choice`, the two reals are the new particle's draws. */
  function GenerateState(cfg: Config, alive: bool, kind: Kind, dir: Dir, uEnergy: real, uSpecies: real): (r: State)
    ensures Count(r) == if alive then 1 else 0
    ensures alive ==> r.Get(dir).Occupied? && r.Get(dir).p == NewParticle(cfg, kind, uEnergy, uSpecies)
  {
    if alive then Vacant.Set(dir, Occupied(NewParticle(cfg, kind, uEnergy, uSpecies))) else Vacant
  }

  /** The cell turned half a revolution: N and S trade places, as do E and W. */
  function Flip(c: State): (r: State)
    ensures forall d :: r.Get(d) == c.Get(Opposite(d))
  {
    State(c.s, c.w, c.n, c.e)
  }

  function Opposite(d: Dir): Dir
  {
    match d
    case N => S
    case E => W
    case S => N
    case W => E
  }
}

=== FILE: collision.dfy ===
/** Energy exchange between two colliding particles (`Board.good_collision`,
    `Board.bad_collision`, `Board.collide_particles`) and the head-on
    scattering at the start of `Board.calculate_cell`. */
module Collision {
  import opened Particles
  import opened Cells

  /** What one collision adds to the pair's total energy under `cfg`. */
  function CollisionGain(cfg: Config): real
  {
    if cfg.split.Unrecognized? then 0.0 else cfg.energyGain
  }

  /** The collision shares the gain equally ... */
  predicate EqualRule(cfg: Config, p1: Particle, p2: Particle)
  {
    cfg.split.Equal? || (cfg.split.GoodOrBad? && p1.species == Good && p2.species == Good)
  }

  /** ... or gives all of it to the more energetic particle. */
  predicate WinnerRule(cfg: Config, p1: Particle, p2: Particle)
  {
    cfg.split.WinnerTakesItAll? || (cfg.split.GoodOrBad? && !(p1.species == Good && p2.species == Good))
  }

  /** `Board.good_collision`: both particles gain half of ENERGY_GAIN. */
  function GoodCollision(cfg: Config, p1: Particle, p2: Particle): (r: (Particle, Particle))
    ensures r.0.species == p1.species && r.1.species == p2.species
    ensures r.0.energy - p1.energy == r.1.energy - p2.energy
    ensures r.0.energy + r.1.energy == p1.energy + p2.energy + cfg.energyGain
  {
    (p1.(energy := p1.energy + cfg.energyGain / 2.0), p2.(energy := p2.energy + cfg.energyGain / 2.0))
  }

  /** `Board.bad_collision`: the strictly more energetic `p1` takes all
      of ENERGY_GAIN; otherwise, ties included, `p2` does. */
  function BadCollision(cfg: Config, p1: Particle, p2: Particle): (r: (Particle, Particle))
    ensures r.0.species == p1.species && r.1.species == p2.species
    ensures r.0 == p1 || r.1 == p2
    ensures r.0.energy + r.1.energy == p1.energy + p2.energy + cfg.energyGain
    ensures cfg.energyGain != 0.0 ==> (r.0 != p1 <==> p1.energy > p2.energy)
  {
    if p1.energy > p2.energy then
      (p1.(energy := p1.energy + cfg.energyGain), p2)
    else
      (p1, p2.(energy := p2.energy + cfg.energyGain))
  }

  /** `Board.collide_particles`: the split mode picks the rule. */
  function CollideParticles(cfg: Config, p1: Particle, p2: Particle): (r: (Particle, Particle))
    ensures r.0.species == p1.species && r.1.species == p2.species
    ensures r.0.energy + r.1.energy == p1.energy + p2.energy + CollisionGain(cfg)
    ensures EqualRule(cfg, p1, p2) ==>
              r.0.energy == p1.energy + cfg.energyGain / 2.0 && r.1.energy == p2.energy + cfg.energyGain / 2.0
    ensures WinnerRule(cfg, p1, p2) && p1.energy > p2.energy ==>
              r.0.energy == p1.energy + cfg.energyGain && r.1 == p2
    ensures WinnerRule(cfg, p1, p2) && p1.energy <= p2.energy ==>
              r.0 == p1 && r.1.energy == p2.energy + cfg.energyGain
    ensures cfg.split.Unrecognized? ==> r == (p1, p2)
  {
    match cfg.split
    case Equal => GoodCollision(cfg, p1, p2)
    case WinnerTakesItAll => BadCollision(cfg, p1, p2)
    case GoodOrBad =>
      if p1.species == Good && p2.species == Good then GoodCollision(cfg, p1, p2)
      else BadCollision(cfg, p1, p2)
    case Unrecognized => (p1, p2)
  }

  /** Exactly one of the two rules applies under a recognised split mode. */
  lemma RulesPartition(cfg: Config, p1: Particle, p2: Particle)
    ensures !cfg.split.Unrecognized? <==> (EqualRule(cfg, p1, p2) || WinnerRule(cfg, p1, p2))
    ensures !(EqualRule(cfg, p1, p2) && WinnerRule(cfg, p1, p2))
  {
  }

  /** Swapping the arguments swaps the results unless the winner rule meets
      a tie: a tie always goes to the second argument. */
  lemma CollideSymmetric(cfg: Config, p1: Particle, p2: Particle)
    requires !WinnerRule(cfg, p1, p2) || p1.energy != p2.energy
    ensures CollideParticles(cfg, p2, p1) == (CollideParticles(cfg, p1, p2).1, CollideParticles(cfg, p1, p2).0)
  {
  }

  /** The first half of `Board.calculate_cell`: a head-on pair collides
      and leaves on the perpendicular axis; `swap` is the 50% draw that
      exchanges the pair before the collision. Any other cell is returned
      as it is. */
  function Scatter(cfg: Config, c: State, swap: bool): (r: State)
    ensures !IsCollision(c) ==> r == c
    ensures IsCollision(c) && c.e.Occupied? ==>
              r.n.Occupied? && r.s.Occupied? && r.e.Empty? && r.w.Empty?
    ensures IsCollision(c) && c.n.Occupied? ==>
              r.e.Occupied? && r.w.Occupied? && r.n.Empty? && r.s.Empty?
    ensures IsCollision(c) && c.e.Occupied? ==>
              (r.n.p, r.s.p) == CollideParticles(cfg, if swap then c.e.p else c.w.p, if swap then c.w.p else c.e.p)
    ensures IsCollision(c) && c.n.Occupied? ==>
              (r.w.p, r.e.p) == CollideParticles(cfg, if swap then c.s.p else c.n.p, if swap then c.n.p else c.s.p)
  {
    if !IsCollision(c) then c
    else if c.n.Empty? then
      // East-west pair: p1 is whatever sits in W after the optional swap.
      var (p1, p2) := if swap then (c.e.p, c.w.p) else (c.w.p, c.e.p);
      var (q1, q2) := CollideParticles(cfg, p1, p2);
      State(Occupied(q1), Empty, Occupied(q2), Empty)
    else
      // North-south pair: p1 is whatever sits in N after the optional swap.
      var (p1, p2) := if swap then (c.s.p, c.n.p) else (c.n.p, c.s.p);
      var (q1, q2) := CollideParticles(cfg, p1, p2);
      State(Empty, Occupied(q2), Empty, Occupied(q1))
  }

  /** Scattering keeps the particles and their species, and a collision
      adds exactly its gain to the cell's energy. */
  lemma ScatterConserves(cfg: Config, c: State, swap: bool)
    ensures Count(Scatter(cfg, c, swap)) == Count(c)
    ensures SpeciesOf(Scatter(cfg, c, swap)) == SpeciesOf(c)
    ensures Energy(Scatter(cfg, c, swap)) == Energy(c) + (if IsCollision(c) then CollisionGain(cfg) else 0.0)
  {
    if IsCollision(c) {
      if c.n.Empty? {
        assert c == State(Empty, c.e, Empty, c.w);
        ScatterEastWest(cfg, c.e.p, c.w.p, swap);
      } else {
        assert c == State(c.n, Empty, c.s, Empty);
        ScatterNorthSouth(cfg, c.n.p, c.s.p, swap);
      }
    }
  }

  /** An east-west pair leaves on the north-south axis. */
  lemma ScatterEastWest(cfg: Config, e: Particle, w: Particle, swap: bool)
    ensures var c := State(Empty, Occupied(e), Empty, Occupied(w));
            && Count(Scatter(cfg, c, swap)) == Count(c) == 2
            && SpeciesOf(Scatter(cfg, c, swap)) == SpeciesOf(c) == multiset{e.species, w.species}
            && Energy(Scatter(cfg, c, swap)) == Energy(c) + CollisionGain(cfg)
  {
    var c := State(Empty, Occupied(e), Empty, Occupied(w));
    var p1 := if swap then e else w;
    var p2 := if swap then w else e;
    var q := CollideParticles(cfg, p1, p2);
    assert Scatter(cfg, c, swap) == State(Occupied(q.0), Empty, Occupied(q.1), Empty);
    PairMeasures(c, e, w);
    PairMeasures(Scatter(cfg, c, swap), q.0, q.1);
    assert multiset{p1.species, p2.species} == multiset{e.species, w.species};
  }

  /** A north-south pair leaves on the east-west axis. */
  lemma ScatterNorthSouth(cfg: Config, n: Particle, s: Particle, swap: bool)
    ensures var c := State(Occupied(n), Empty, Occupied(s), Empty);
            && Count(Scatter(cfg, c, swap)) == Count(c) == 2
            && SpeciesOf(Scatter(cfg, c, swap)) == SpeciesOf(c) == multiset{n.species, s.species}
            && Energy(Scatter(cfg, c, swap)) == Energy(c) + CollisionGain(cfg)
  {
    var c := State(Occupied(n), Empty, Occupied(s), Empty);
    var p1 := if swap then s else n;
    var p2 := if swap then n else s;
    var q := CollideParticles(cfg, p1, p2);
    assert Scatter(cfg, c, swap) == State(Empty, Occupied(q.1), Empty, Occupied(q.0));
    PairMeasures(c, n, s);
    PairMeasures(Scatter(cfg, c, swap), q.1, q.0);
    assert multiset{p1.species, p2.species} == multiset{n.species, s.species};
  }

  /** The measures of a cell holding exactly the two particles a and b on
      one axis (a in N or E, b in S or W). */
  lemma PairMeasures(c: State, a: Particle, b: Particle)
    requires c == State(Occupied(a), Empty, Occupied(b), Empty) || c == State(Empty, Occupied(a), Empty, Occupied(b))
    ensures Count(c) == 2
    ensures SpeciesOf(c) == multiset{a.species, b.species}
    ensures Energy(c) == a.energy + b.energy
  {
  }

  /** The two particles of a head-on pair, in (N, S) or (W, E) order. */
  function Pair(c: State): (Particle, Particle)
    requires IsCollision(c)
  {
    if c.n.Empty? then (c.w.p, c.e.p) else (c.n.p, c.s.p)
  }

  /** Unless a tie meets the winner rule, the swap draw only decides which
      of the two new slots each particle lands in. */
  lemma ScatterSwapOnlyMirrors(cfg: Config, c: State)
    requires IsCollision(c)
    requires !WinnerRule(cfg, Pair(c).0, Pair(c).1) || Pair(c).0.energy != Pair(c).1.energy
    ensures Scatter(cfg, c, true) == Flip(Scatter(cfg, c, false))
  {
    CollideSymmetric(cfg, Pair(c).0, Pair(c).1);
  }

  /** On a tie under the winner rule the gain goes to the second argument
      of the collision, so the swap draw decides which original particle
      gains: E (or S) without the swap, W (or N) with it. */
  lemma ScatterTieFollowsSwap(cfg: Config, c: State)
    requires IsCollision(c)
    requires WinnerRule(cfg, Pair(c).0, Pair(c).1) && Pair(c).0.energy == Pair(c).1.energy
    ensures c.n.Empty? ==>
              (Scatter(cfg, c, false) == State(c.w, Empty, Occupied(c.e.p.(energy := c.e.p.energy + cfg.energyGain)), Empty)
           && Scatter(cfg, c, true) == State(c.e, Empty, Occupied(c.w.p.(energy := c.w.p.energy + cfg.energyGain)), Empty))
    ensures c.n.Occupied? ==>
              (Scatter(cfg, c, false) == State(Empty, Occupied(c.s.p.(energy := c.s.p.energy + cfg.energyGain)), Empty, c.n)
           && Scatter(cfg, c, true) == State(Empty, Occupied(c.n.p.(energy := c.n.p.energy + cfg.energyGain)), Empty, c.s))
  {
  }
}

=== FILE: conservation.dfy ===
/** What one tick of the board does to its particle count and to its total
    energy. Propagation only moves slots along a torus shift, so it keeps
    every total; decay removes exhausted particles and takes 1 from the
    others; scattering keeps the particles and adds ENERGY_GAIN per
    collision. */
module Conservation {
  import opened Sums
  import opened Particles
  import opened Cells
  import opened Collision
  import opened Torus
  import opened Board

  /** The quantities summed over a layer: the number of particles, their
      energy, and the energy of the exhausted ones (energy <= 0), which
      the next decay clears. */
  datatype Measure = Population | TotalEnergy | Exhausted

  function SlotWeight(m: Measure, s: Slot): real
  {
    match m
    case Population => SlotCount(s) as real
    case TotalEnergy => SlotEnergy(s)
    case Exhausted => if s.Occupied? && s.p.energy <= 0.0 then s.p.energy else 0.0
  }

  function CellWeight(m: Measure, c: State): real
  {
    SlotWeight(m, c.n) + SlotWeight(m, c.e) + SlotWeight(m, c.s) + SlotWeight(m, c.w)
  }

  /** The cell weights are the cell measures of `Cells`. */
  lemma CellWeightMeasures(c: State)
    ensures CellWeight(Population, c) == Count(c) as real
    ensures CellWeight(TotalEnergy, c) == Energy(c)
  {
  }

  function Weights(m: Measure, l: Layer): (v: seq<seq<real>>)
    ensures |v| == |l| && forall x :: 0 <= x < |l| ==> |v[x]| == |l[x]|
  {
    seq(|l|, x requires 0 <= x < |l| =>
      seq(|l[x]|, y requires 0 <= y < |l[x]| => CellWeight(m, l[x][y])))
  }

  /** The weights of the `d` slots alone. */
  function DirWeights(m: Measure, l: Layer, d: Dir): (v: seq<seq<real>>)
    ensures |v| == |l| && forall x :: 0 <= x < |l| ==> |v[x]| == |l[x]|
  {
    seq(|l|, x requires 0 <= x < |l| =>
      seq(|l[x]|, y requires 0 <= y < |l[x]| => SlotWeight(m, l[x][y].Get(d))))
  }

  function Total(m: Measure, l: Layer): real
  {
    Sum2(Weights(m, l))
  }

  function DirTotal(m: Measure, l: Layer, d: Dir): real
  {
    Sum2(DirWeights(m, l, d))
  }

  /** 1 for a cell that is a head-on collision, 0 otherwise. */
  function CollisionMarks(l: Layer): (v: seq<seq<real>>)
    ensures |v| == |l| && forall x :: 0 <= x < |l| ==> |v[x]| == |l[x]|
  {
    seq(|l|, x requires 0 <= x < |l| =>
      seq(|l[x]|, y requires 0 <= y < |l[x]| => if IsCollision(l[x][y]) then 1.0 else 0.0))
  }

  /** The number of colliding cells of a layer. */
  function Collisions(l: Layer): real
  {
    Sum2(CollisionMarks(l))
  }

  /** ENERGY_GAIN on each colliding cell, 0 elsewhere. */
  function GainMarks(cfg: Config, l: Layer): (v: seq<seq<real>>)
    ensures |v| == |l| && forall x :: 0 <= x < |l| ==> |v[x]| == |l[x]|
  {
    seq(|l|, x requires 0 <= x < |l| =>
      seq(|l[x]|, y requires 0 <= y < |l[x]| => if IsCollision(l[x][y]) then CollisionGain(cfg) else 0.0))
  }

  /** The energy the collisions of a layer add. */
  function CollisionEnergy(cfg: Config, l: Layer): real
  {
    Sum2(GainMarks(cfg, l))
  }

  /** ... which is the gain per collision times the number of collisions. */
  lemma CollisionEnergyPerCollision(cfg: Config, l: Layer)
    ensures CollisionEnergy(cfg, l) == CollisionGain(cfg) * Collisions(l)
  {
    var a := GainMarks(cfg, l);
    var c := CollisionMarks(l);
    forall x, y | 0 <= x < |l| && 0 <= y < |l[x]|
      ensures a[x][y] == CollisionGain(cfg) * c[x][y]
    {
    }
    Sum2Scale(a, c, CollisionGain(cfg));
  }

  /** A layer's total is the sum of its four directional totals. */
  lemma TotalByDirection(m: Measure, l: Layer)
    ensures Total(m, l) == DirTotal(m, l, N) + DirTotal(m, l, E) + DirTotal(m, l, S) + DirTotal(m, l, W)
  {
    Sum2OfFour(Weights(m, l), DirWeights(m, l, N), DirWeights(m, l, E), DirWeights(m, l, S), DirWeights(m, l, W));
  }

  /** Slot weights of the arrivals, read from the upstream cell. */
  lemma ArrivalWeight(m: Measure, n: nat, p: Layer, x: int, y: int, d: Dir)
    requires IsSquare(n, p) && 0 <= x < n && 0 <= y < n
    ensures DirWeights(m, Arrivals(n, p), d)[x][y]
            == DirWeights(m, p, d)[Src(n, x, y, d).0][Src(n, x, y, d).1]
  {
    assert Arrivals(n, p)[x][y] == Gather(n, p, x, y);
  }

  /** Northward moves rotate every column (fixed x) by one to the right. */
  lemma NorthKeepsTotal(m: Measure, n: nat, p: Layer)
    requires IsSquare(n, p)
    ensures DirTotal(m, Arrivals(n, p), N) == DirTotal(m, p, N)
  {
    var a := DirWeights(m, Arrivals(n, p), N);
    var b := DirWeights(m, p, N);
    forall x | 0 <= x < n
      ensures RowSums(a)[x] == RowSums(b)[x]
    {
      forall y | 0 <= y < n
        ensures a[x][y] == if y == 0 then b[x][n - 1] else b[x][y - 1]
      {
        ArrivalWeight(m, n, p, x, y, N);
      }
      SumRotateRight(b[x], a[x]);
    }
    assert RowSums(a) == RowSums(b);
  }

  /** Southward moves rotate every column by one to the left. */
  lemma SouthKeepsTotal(m: Measure, n: nat, p: Layer)
    requires IsSquare(n, p)
    ensures DirTotal(m, Arrivals(n, p), S) == DirTotal(m, p, S)
  {
    var a := DirWeights(m, Arrivals(n, p), S);
    var b := DirWeights(m, p, S);
    forall x | 0 <= x < n
      ensures RowSums(a)[x] == RowSums(b)[x]
    {
      forall y | 0 <= y < n
        ensures a[x][y] == if y == n - 1 then b[x][0] else b[x][y + 1]
      {
        ArrivalWeight(m, n, p, x, y, S);
      }
      SumRotateLeft(b[x], a[x]);
    }
    assert RowSums(a) == RowSums(b);
  }

  /** Eastward moves rotate the rows (fixed y) by one to the right, which
      moves whole inner sequences of the layer. */
  lemma EastKeepsTotal(m: Measure, n: nat, p: Layer)
    requires IsSquare(n, p)
    ensures DirTotal(m, Arrivals(n, p), E) == DirTotal(m, p, E)
  {
    var a := DirWeights(m, Arrivals(n, p), E);
    var b := DirWeights(m, p, E);
    if n > 0 {
      forall x | 0 <= x < n
        ensures RowSums(a)[x] == if x == 0 then RowSums(b)[n - 1] else RowSums(b)[x - 1]
      {
        forall y | 0 <= y < n
          ensures a[x][y] == if x == 0 then b[n - 1][y] else b[x - 1][y]
        {
          ArrivalWeight(m, n, p, x, y, E);
        }
        assert a[x] == if x == 0 then b[n - 1] else b[x - 1];
      }
      SumRotateRight(RowSums(b), RowSums(a));
    }
  }

  /** Westward moves rotate the rows by one to the left. */
  lemma WestKeepsTotal(m: Measure, n: nat, p: Layer)
    requires IsSquare(n, p)
    ensures DirTotal(m, Arrivals(n, p), W) == DirTotal(m, p, W)
  {
    var a := DirWeights(m, Arrivals(n, p), W);
    var b := DirWeights(m, p, W);
    if n > 0 {
      forall x | 0 <= x < n
        ensures RowSums(a)[x] == if x == n - 1 then RowSums(b)[0] else RowSums(b)[x + 1]
      {
        forall y | 0 <= y < n
          ensures a[x][y] == if x == n - 1 then b[0][y] else b[x + 1][y]
        {
          ArrivalWeight(m, n, p, x, y, W);
        }
        assert a[x] == if x == n - 1 then b[0] else b[x + 1];
      }
      SumRotateLeft(RowSums(b), RowSums(a));
    }
  }

  /** Propagation keeps every total: it is a permutation of the slots. */
  lemma ArrivalsKeepTotal(m: Measure, n: nat, p: Layer)
    requires IsSquare(n, p)
    ensures Total(m, Arrivals(n, p)) == Total(m, p)
  {
    TotalByDirection(m, p);
    TotalByDirection(m, Arrivals(n, p));
    NorthKeepsTotal(m, n, p);
    SouthKeepsTotal(m, n, p);
    EastKeepsTotal(m, n, p);
    WestKeepsTotal(m, n, p);
  }

  /** Decay never adds a particle. */
  lemma DecayedPopulation(l: Layer)
    ensures Total(Population, Decayed(l)) <= Total(Population, l)
  {
    var a := Weights(Population, Decayed(l));
    var b := Weights(Population, l);
    forall x, y | 0 <= x < |l| && 0 <= y < |l[x]|
      ensures a[x][y] <= b[x][y]
    {
      assert Decayed(l)[x][y] == Decay(l[x][y]);
    }
    Sum2Le(a, b);
  }

  /** One slot of decay: a surviving particle loses exactly 1, and an
      exhausted one takes its (non-positive) energy with it. */
  lemma DecaySlotEnergy(s: Slot)
    ensures SlotWeight(TotalEnergy, DecaySlot(s))
            == SlotWeight(TotalEnergy, s) - SlotWeight(Population, DecaySlot(s)) - SlotWeight(Exhausted, s)
  {
  }

  /** Decay of a whole layer: the energy falls by one per survivor and by
      the energy of the cleared particles. */
  lemma DecayedEnergy(l: Layer)
    ensures Total(TotalEnergy, Decayed(l))
            == Total(TotalEnergy, l) - Total(Population, Decayed(l)) - Total(Exhausted, l)
  {
    var dl := Decayed(l);
    var e := Weights(TotalEnergy, dl);
    forall x, y | 0 <= x < |l| && 0 <= y < |l[x]|
      ensures e[x][y] == Weights(TotalEnergy, l)[x][y] - Weights(Population, dl)[x][y] - Weights(Exhausted, l)[x][y]
    {
      var c := l[x][y];
      assert dl[x][y] == Decay(c);
      DecaySlotEnergy(c.n);
      DecaySlotEnergy(c.e);
      DecaySlotEnergy(c.s);
      DecaySlotEnergy(c.w);
    }
    Sum2Diff(e, Weights(TotalEnergy, l), Weights(Population, dl), Weights(Exhausted, l));
  }

  /** One cell of a scattered layer. */
  lemma ScatteredCell(cfg: Config, l: Layer, swap: Coin, x: int, y: int)
    requires 0 <= x < |l| && 0 <= y < |l[x]|
    ensures Weights(Population, Scattered(cfg, l, swap))[x][y] == Weights(Population, l)[x][y]
    ensures Weights(TotalEnergy, Scattered(cfg, l, swap))[x][y]
            == Weights(TotalEnergy, l)[x][y] + GainMarks(cfg, l)[x][y]
  {
    var c := l[x][y];
    var r := Scatter(cfg, c, swap(x, y));
    assert Scattered(cfg, l, swap)[x][y] == r;
    ScatterConserves(cfg, c, swap(x, y));
    CellWeightMeasures(c);
    CellWeightMeasures(r);
  }

  /** Scattering keeps the population ... */
  lemma ScatteredPopulation(cfg: Config, l: Layer, swap: Coin)
    ensures Total(Population, Scattered(cfg, l, swap)) == Total(Population, l)
  {
    var a := Weights(Population, Scattered(cfg, l, swap));
    var b := Weights(Population, l);
    forall x | 0 <= x < |l|
      ensures a[x] == b[x]
    {
      forall y | 0 <= y < |l[x]|
        ensures a[x][y] == b[x][y]
      {
        ScatteredCell(cfg, l, swap, x, y);
      }
    }
    assert a == b;
  }

  /** ... and adds the gain once per colliding cell. */
  lemma ScatteredEnergy(cfg: Config, l: Layer, swap: Coin)
    ensures Total(TotalEnergy, Scattered(cfg, l, swap)) == Total(TotalEnergy, l) + CollisionEnergy(cfg, l)
  {
    var a := Weights(TotalEnergy, Scattered(cfg, l, swap));
    var b := Weights(TotalEnergy, l);
    forall x, y | 0 <= x < |l| && 0 <= y < |l[x]|
      ensures a[x][y] == b[x][y] + GainMarks(cfg, l)[x][y]
    {
      ScatteredCell(cfg, l, swap, x, y);
    }
    Sum2Add(a, b, GainMarks(cfg, l));
  }

  /** Every total after a tick is the total after decay and scattering:
      propagation and the buffer commit move particles but keep them. */
  lemma TickKeepsScatteredTotal(m: Measure, cfg: Config, g: Grid, swap: Coin)
    requires WellFormed(cfg.mapSize, g) && Settled(g)
    ensures Total(m, States(Tick(cfg, g, swap))) == Total(m, Scattered(cfg, Decayed(States(g)), swap))
  {
    TickArrivals(cfg, g, swap);
    ProcessedStages(cfg, g, swap);
    ArrivalsKeepTotal(m, cfg.mapSize, Processed(cfg, g, swap));
  }

  /** A tick from a settled board loses only the particles decay clears:
      scattering and propagation keep every particle. */
  lemma TickPopulation(cfg: Config, g: Grid, swap: Coin)
    requires WellFormed(cfg.mapSize, g) && Settled(g)
    ensures Total(Population, States(Tick(cfg, g, swap))) == Total(Population, Decayed(States(g)))
    ensures Total(Population, States(Tick(cfg, g, swap))) <= Total(Population, States(g))
  {
    TickKeepsScatteredTotal(Population, cfg, g, swap);
    ScatteredPopulation(cfg, Decayed(States(g)), swap);
    DecayedPopulation(States(g));
  }

  /** The energy balance of a tick from a settled board: decay's change
      plus ENERGY_GAIN for every cell where a head-on collision happened
      after decay. */
  lemma TickEnergy(cfg: Config, g: Grid, swap: Coin)
    requires WellFormed(cfg.mapSize, g) && Settled(g)
    ensures Total(TotalEnergy, States(Tick(cfg, g, swap)))
            == Total(TotalEnergy, States(g))
               - Total(Population, Decayed(States(g)))
               - Total(Exhausted, States(g))
               + CollisionEnergy(cfg, Decayed(States(g)))
  {
    var l := States(g);
    var dl := Decayed(l);
    TickKeepsScatteredTotal(TotalEnergy, cfg, g, swap);
    ScatteredEnergy(cfg, dl, swap);
    DecayedEnergy(l);
  }
}

=== FILE: particles.dfy ===
/** Particles of the lattice gas and the module-level configuration of
    hpc.py (map_size, DENSITY, ENERGY_INIT, ENERGY_GAIN, ENERGY_SPLIT,
    GOOD_TO_BAD_RATIO). Energies are exact reals: the source only adds
    constants to them and subtracts 1. */
module Particles {

  datatype Species = Good | Bad

  datatype Particle = Particle(energy: real, species: Species)

  /** How a collision shares ENERGY_GAIN. `Unrecognized` stands for any
      other ENERGY_SPLIT string: the source's if/elif chain then leaves
      both particles untouched. */
  datatype Split = Equal | WinnerTakesItAll | GoodOrBad | Unrecognized

  datatype Config = Config(
    mapSize: nat,
    density: real,
    energyInit: real,
    energyGain: real,
    split: Split,
    goodToBadRatio: real)

  /** The constants hpc.py is shipped with. */
  const Default := Config(32, 0.2, 20.0, 10.0, GoodOrBad, 0.8)

  /** The `ptype` argument of a new particle: drawn at random, or given. */
  datatype Kind = Random | Fixed(species: Species)

  /** `Particle(ptype)`: `uEnergy` and `uSpecies` are the two draws of
      `random.uniform` / `random.random` in [0, 1]. */
  function NewParticle(cfg: Config, kind: Kind, uEnergy: real, uSpecies: real): (p: Particle)
    ensures 0.0 <= uEnergy <= 1.0 && 0.0 <= cfg.energyInit ==>
              0.9 * cfg.energyInit <= p.energy <= 1.1 * cfg.energyInit
    ensures kind.Fixed? ==> p.species == kind.species
    ensures kind.Random? ==> (p.species == Good <==> uSpecies < cfg.goodToBadRatio)
  {
    var diff := 0.1 * cfg.energyInit;
    var lo := cfg.energyInit - diff;
    var hi := cfg.energyInit + diff;
    var species := match kind
      case Random => if uSpecies < cfg.goodToBadRatio then Good else Bad
      case Fixed(s) => s;
    UniformBounds(lo, hi, uEnergy);
    Particle(Uniform(lo, hi, uEnergy), species)
  }

  /** `random.uniform(lo, hi)` for the draw u of `random.random()`. */
  function Uniform(lo: real, hi: real, u: real): real
  {
    lo + (hi - lo) * u
  }

  lemma UniformBounds(lo: real, hi: real, u: real)
    ensures lo <= hi && 0.0 <= u <= 1.0 ==> lo <= Uniform(lo, hi, u) <= hi
  {
    if lo <= hi && 0.0 <= u <= 1.0 {
      MulNonNegative(hi - lo, u);
      MulNonNegative(hi - lo, 1.0 - u);
      assert (hi - lo) * (1.0 - u) == (hi - lo) - (hi - lo) * u;
    }
  }

  lemma MulNonNegative(a: real, b: real)
    requires 0.0 <= a && 0.0 <= b
    ensures 0.0 <= a * b
  {
  }

  /** `Particle.decrease_energy`. */
  function DecreaseEnergy(p: Particle): (q: Particle)
    ensures q.species == p.species
    ensures q.energy == p.energy - 1.0
  {
    p.(energy := p.energy - 1.0)
  }
}

=== FILE: scenarios.dfy ===
/** Worked single-cell examples of the tick's local part (decay, then
    scattering), fixing the rule choices the general lemmas leave open:
    decay comes before the collision, the good_or_bad rule rewards the
    more energetic particle whatever its species, and a perpendicular
    pair is not a collision. */
module Scenarios {
  import opened Particles
  import opened Cells
  import opened Collision
  import opened Board

  /** A good north-south pair of energies 20 and 30 under the `equal`
      split with ENERGY_GAIN 40 and no swap: each loses 1 to decay, gains
      20, and the pair leaves on the east-west axis, N's particle in W. */
  lemma DecayBeforeCollision()
    ensures var cfg := Default.(split := Equal, energyGain := 40.0);
            var c := State(Occupied(Particle(20.0, Good)), Empty, Occupied(Particle(30.0, Good)), Empty);
            Process(cfg, c, false) == State(Empty, Occupied(Particle(49.0, Good)), Empty, Occupied(Particle(39.0, Good)))
  {
  }

  /** Under good_or_bad a good particle facing a bad one takes the whole
      gain when it has more energy: the rule is the winner rule, not a
      rule that favours the bad species. */
  lemma GoodOutweighsBad()
    ensures var c := State(Occupied(Particle(30.0, Good)), Empty, Occupied(Particle(20.0, Bad)), Empty);
            Process(Default, c, false) == State(Empty, Occupied(Particle(19.0, Bad)), Empty, Occupied(Particle(39.0, Good)))
  {
  }

  /** A tie under the winner rule goes to the second argument of the
      collision, which the swap draw picks. */
  lemma TieGoesToSecond()
    ensures var c := State(Empty, Occupied(Particle(11.0, Bad)), Empty, Occupied(Particle(11.0, Good)));
            && Process(Default, c, false) == State(Occupied(Particle(10.0, Good)), Empty, Occupied(Particle(20.0, Bad)), Empty)
            && Process(Default, c, true) == State(Occupied(Particle(10.0, Bad)), Empty, Occupied(Particle(20.0, Good)), Empty)
  {
  }

  /** A north-east pair only decays. */
  lemma PerpendicularPairPasses()
    ensures var c := State(Occupied(Particle(5.0, Good)), Occupied(Particle(7.0, Bad)), Empty, Empty);
            Process(Default, c, true) == State(Occupied(Particle(4.0, Good)), Occupied(Particle(6.0, Bad)), Empty, Empty)
  {
  }

  /** A particle of energy 0.5 survives one decay with energy -0.5 and is
      cleared by the next. */
  lemma ExhaustedParticleLingers()
    ensures Decay(State(Occupied(Particle(0.5, Bad)), Empty, Empty, Empty))
            == State(Occupied(Particle(-0.5, Bad)), Empty, Empty, Empty)
    ensures Decay(Decay(State(Occupied(Particle(0.5, Bad)), Empty, Empty, Empty))) == Vacant
  {
  }
}

=== FILE: sums.dfy ===
/** Finite sums of reals over sequences and rectangular grids, with the
    reindexing facts (concatenation, rotation by one, pointwise linearity)
    that the conservation proofs of the lattice model rely on. */
module Sums {

  function Sum(s: seq<real>): real
  {
    if |s| == 0 then 0.0 else s[0] + Sum(s[1..])
  }

  lemma {:induction false} SumConcat(a: seq<real>, b: seq<real>)
    ensures Sum(a + b) == Sum(a) + Sum(b)
  {
    if |a| == 0 {
      assert a + b == b;
    } else {
      assert (a + b)[1..] == a[1..] + b;
      SumConcat(a[1..], b);
    }
  }

  /** Moving the first element to the back does not change the sum. */
  lemma SumRotateLeft(s: seq<real>, t: seq<real>)
    requires |s| == |t| > 0
    requires t[|t| - 1] == s[0]
    requires forall i :: 0 <= i < |t| - 1 ==> t[i] == s[i + 1]
    ensures Sum(t) == Sum(s)
  {
    assert t == s[1..] + [s[0]];
    SumConcat(s[1..], [s[0]]);
  }

  /** Moving the last element to the front does not change the sum. */
  lemma SumRotateRight(s: seq<real>, t: seq<real>)
    requires |s| == |t| > 0
    requires t[0] == s[|s| - 1]
    requires forall i :: 1 <= i < |t| ==> t[i] == s[i - 1]
    ensures Sum(t) == Sum(s)
  {
    var k := |s| - 1;
    assert t == [s[k]] + s[..k];
    assert s == s[..k] + [s[k]];
    SumConcat([s[k]], s[..k]);
    SumConcat(s[..k], [s[k]]);
  }

  /** Pointwise a = b + c lifts to the sums. */
  lemma {:induction false} SumAdd(a: seq<real>, b: seq<real>, c: seq<real>)
    requires |a| == |b| == |c|
    requires forall i :: 0 <= i < |a| ==> a[i] == b[i] + c[i]
    ensures Sum(a) == Sum(b) + Sum(c)
  {
    if |a| > 0 {
      SumAdd(a[1..], b[1..], c[1..]);
    }
  }

  /** Pointwise a = k * c lifts to the sums. */
  lemma {:induction false} SumScale(a: seq<real>, c: seq<real>, k: real)
    requires |a| == |c|
    requires forall i :: 0 <= i < |a| ==> a[i] == k * c[i]
    ensures Sum(a) == k * Sum(c)
  {
    if |a| > 0 {
      SumScale(a[1..], c[1..], k);
      assert k * (c[0] + Sum(c[1..])) == k * c[0] + k * Sum(c[1..]);
    }
  }

  /** Pointwise e = a + b + c + d lifts to the sums. */
  lemma {:induction false} SumOfFour(e: seq<real>, a: seq<real>, b: seq<real>, c: seq<real>, d: seq<real>)
    requires |e| == |a| == |b| == |c| == |d|
    requires forall i :: 0 <= i < |e| ==> e[i] == a[i] + b[i] + c[i] + d[i]
    ensures Sum(e) == Sum(a) + Sum(b) + Sum(c) + Sum(d)
  {
    if |e| > 0 {
      SumOfFour(e[1..], a[1..], b[1..], c[1..], d[1..]);
    }
  }

  /** Pointwise e = a - b - c lifts to the sums. */
  lemma {:induction false} SumDiff(e: seq<real>, a: seq<real>, b: seq<real>, c: seq<real>)
    requires |e| == |a| == |b| == |c|
    requires forall i :: 0 <= i < |e| ==> e[i] == a[i] - b[i] - c[i]
    ensures Sum(e) == Sum(a) - Sum(b) - Sum(c)
  {
    if |e| > 0 {
      SumDiff(e[1..], a[1..], b[1..], c[1..]);
    }
  }

  /** Pointwise a <= b lifts to the sums. */
  lemma {:induction false} SumLe(a: seq<real>, b: seq<real>)
    requires |a| == |b|
    requires forall i :: 0 <= i < |a| ==> a[i] <= b[i]
    ensures Sum(a) <= Sum(b)
  {
    if |a| > 0 {
      SumLe(a[1..], b[1..]);
    }
  }

  /** Grids of reals, summed row by row. */
  function RowSums(v: seq<seq<real>>): (r: seq<real>)
    ensures |r| == |v|
  {
    seq(|v|, x requires 0 <= x < |v| => Sum(v[x]))
  }

  function Sum2(v: seq<seq<real>>): real
  {
    Sum(RowSums(v))
  }

  predicate SameShape(a: seq<seq<real>>, b: seq<seq<real>>)
  {
    |a| == |b| && forall x :: 0 <= x < |a| ==> |a[x]| == |b[x]|
  }

  lemma Sum2Add(a: seq<seq<real>>, b: seq<seq<real>>, c: seq<seq<real>>)
    requires SameShape(a, b) && SameShape(a, c)
    requires forall x, y :: 0 <= x < |a| && 0 <= y < |a[x]| ==> a[x][y] == b[x][y] + c[x][y]
    ensures Sum2(a) == Sum2(b) + Sum2(c)
  {
    forall x | 0 <= x < |a|
      ensures RowSums(a)[x] == RowSums(b)[x] + RowSums(c)[x]
    {
      SumAdd(a[x], b[x], c[x]);
    }
    SumAdd(RowSums(a), RowSums(b), RowSums(c));
  }

  lemma Sum2Scale(a: seq<seq<real>>, c: seq<seq<real>>, k: real)
    requires SameShape(a, c)
    requires forall x, y :: 0 <= x < |a| && 0 <= y < |a[x]| ==> a[x][y] == k * c[x][y]
    ensures Sum2(a) == k * Sum2(c)
  {
    RowSumsScale(a, c, k);
    SumScale(RowSums(a), RowSums(c), k);
  }

  lemma RowSumsScale(a: seq<seq<real>>, c: seq<seq<real>>, k: real)
    requires SameShape(a, c)
    requires forall x, y :: 0 <= x < |a| && 0 <= y < |a[x]| ==> a[x][y] == k * c[x][y]
    ensures |RowSums(a)| == |RowSums(c)|
    ensures forall x :: 0 <= x < |a| ==> RowSums(a)[x] == k * RowSums(c)[x]
  {
    forall x | 0 <= x < |a|
      ensures RowSums(a)[x] == k * RowSums(c)[x]
    {
      SumScale(a[x], c[x], k);
    }
  }

  lemma Sum2OfFour(e: seq<seq<real>>, a: seq<seq<real>>, b: seq<seq<real>>, c: seq<seq<real>>, d: seq<seq<real>>)
    requires SameShape(e, a) && SameShape(e, b) && SameShape(e, c) && SameShape(e, d)
    requires forall x, y :: 0 <= x < |e| && 0 <= y < |e[x]| ==> e[x][y] == a[x][y] + b[x][y] + c[x][y] + d[x][y]
    ensures Sum2(e) == Sum2(a) + Sum2(b) + Sum2(c) + Sum2(d)
  {
    forall x | 0 <= x < |e|
      ensures RowSums(e)[x] == RowSums(a)[x] + RowSums(b)[x] + RowSums(c)[x] + RowSums(d)[x]
    {
      SumOfFour(e[x], a[x], b[x], c[x], d[x]);
    }
    SumOfFour(RowSums(e), RowSums(a), RowSums(b), RowSums(c), RowSums(d));
  }

  lemma Sum2Diff(e: seq<seq<real>>, a: seq<seq<real>>, b: seq<seq<real>>, c: seq<seq<real>>)
    requires SameShape(e, a) && SameShape(e, b) && SameShape(e, c)
    requires forall x, y :: 0 <= x < |e| && 0 <= y < |e[x]| ==> e[x][y] == a[x][y] - b[x][y] - c[x][y]
    ensures Sum2(e) == Sum2(a) - Sum2(b) - Sum2(c)
  {
    forall x | 0 <= x < |e|
      ensures RowSums(e)[x] == RowSums(a)[x] - RowSums(b)[x] - RowSums(c)[x]
    {
      SumDiff(e[x], a[x], b[x], c[x]);
    }
    SumDiff(RowSums(e), RowSums(a), RowSums(b), RowSums(c));
  }

  lemma Sum2Le(a: seq<seq<real>>, b: seq<seq<real>>)
    requires SameShape(a, b)
    requires forall x, y :: 0 <= x < |a| && 0 <= y < |a[x]| ==> a[x][y] <= b[x][y]
    ensures Sum2(a) <= Sum2(b)
  {
    forall x | 0 <= x < |a|
      ensures RowSums(a)[x] <= RowSums(b)[x]
    {
      SumLe(a[x], b[x]);
    }
    SumLe(RowSums(a), RowSums(b));
  }
}

=== FILE: torus.dfy ===
/** Neighbour arithmetic on the map_size x map_size torus of
    `Board.calculate_cell`. Two of the four moves use `% map_size`; the
    other two index with `y - 1` / `x - 1` and rely on Python reading
    index -1 as the last element. */
module Torus {
  import opened Cells

  /** Python list indexing: an index in [-n, 0) counts from the end. */
  function PyIndex(n: int, i: int): (r: int)
    requires -n <= i < n
    ensures 0 <= r < n
  {
    if i < 0 then i + n else i
  }

  /** A negative Python index is the Euclidean residue. */
  lemma PyIndexIsModulo(n: int, i: int)
    requires -n <= i < n
    ensures PyIndex(n, i) == i % n
  {
  }

  /** The three residues a unit step can produce. */
  lemma StepMod(n: int, x: int)
    requires 0 <= x < n
    ensures x % n == x
    ensures (x + 1) % n == if x + 1 == n then 0 else x + 1
    ensures (x - 1) % n == if x == 0 then n - 1 else x - 1
  {
  }

  /** Unit step of each direction: N raises y, E raises x. */
  function DX(d: Dir): int
  {
    match d
    case E => 1
    case W => -1
    case _ => 0
  }

  function DY(d: Dir): int
  {
    match d
    case N => 1
    case S => -1
    case _ => 0
  }

  /** `(i + 1) % n` for an index i of a list of length n. */
  function Next(n: int, i: int): (r: int)
    requires 0 <= i < n
    ensures 0 <= r < n
  {
    if i + 1 == n then 0 else i + 1
  }

  lemma NextIsModulo(n: int, i: int)
    requires 0 <= i < n
    ensures Next(n, i) == (i + 1) % n
  {
    StepMod(n, i);
  }

  /** The cell whose `d` slot receives the `d` particle of cell (x, y):
      N goes to (x, (y + 1) % n), S to (x, y - 1), E to ((x + 1) % n, y)
      and W to (x - 1, y), the last two read as Python list indices. */
  function Dest(n: nat, x: int, y: int, d: Dir): (t: (int, int))
    requires 0 <= x < n && 0 <= y < n
    ensures 0 <= t.0 < n && 0 <= t.1 < n
  {
    match d
    case N => (x, Next(n, y))
    case S => (x, PyIndex(n, y - 1))
    case E => (Next(n, x), y)
    case W => (PyIndex(n, x - 1), y)
  }

  /** The only cell whose `d` particle can land in the `d` slot of (x, y). */
  function Src(n: nat, x: int, y: int, d: Dir): (t: (int, int))
    requires 0 <= x < n && 0 <= y < n
    ensures 0 <= t.0 < n && 0 <= t.1 < n
    ensures Dest(n, t.0, t.1, d) == (x, y)
  {
    match d
    case N => (x, PyIndex(n, y - 1))
    case S => (x, Next(n, y))
    case E => (PyIndex(n, x - 1), y)
    case W => (Next(n, x), y)
  }

  /** Each move is one unit step on the torus, taken modulo n. */
  lemma DestIsUnitStep(n: nat, x: int, y: int, d: Dir)
    requires 0 <= x < n && 0 <= y < n
    ensures Dest(n, x, y, d) == ((x + DX(d)) % n, (y + DY(d)) % n)
  {
    StepMod(n, x);
    StepMod(n, y);
  }

  /** The indices Dest computes are the source's own expressions. */
  lemma DestIsSourceIndex(n: nat, x: int, y: int)
    requires 0 <= x < n && 0 <= y < n
    ensures Dest(n, x, y, N) == (x, (y + 1) % n)
    ensures Dest(n, x, y, S) == (x, PyIndex(n, y - 1))
    ensures Dest(n, x, y, E) == ((x + 1) % n, y)
    ensures Dest(n, x, y, W) == (PyIndex(n, x - 1), y)
  {
    NextIsModulo(n, x);
    NextIsModulo(n, y);
  }

  /** Dest and Src are inverse bijections on each direction's slots, so
      two cells never send a particle to the same slot. */
  lemma SrcOfDest(n: nat, x: int, y: int, d: Dir)
    requires 0 <= x < n && 0 <= y < n
    ensures Src(n, Dest(n, x, y, d).0, Dest(n, x, y, d).1, d) == (x, y)
  {
  }

  lemma DestInjective(n: nat, x1: int, y1: int, x2: int, y2: int, d: Dir)
    requires 0 <= x1 < n && 0 <= y1 < n && 0 <= x2 < n && 0 <= y2 < n
    requires Dest(n, x1, y1, d) == Dest(n, x2, y2, d)
    ensures x1 == x2 && y1 == y2
  {
    SrcOfDest(n, x1, y1, d);
    SrcOfDest(n, x2, y2, d);
  }
}
